=== FILE: README.md ===
# PryanikyTask render and fetch model

PryanikyTask is a small iOS screen. It fetches a JSON document that lists
widgets (text blocks, captioned images, segmented controls), renders them
stacked in a scroll view, and shows the outcome of the fetch in a tri-state
status label. This project models the logic that does not depend on UIKit,
as immutable datatypes and pure functions:

- `Model` (model.dfy): the decoded records `ViewData`, `Datum`,
  `InternalData` and `Variant`, the empty document, the `Status` raw values,
  and the payload's coding keys (`selectedID` is read from `"selectedId"`).
- `Schema` (schema.dfy): the synthesized `Codable` conformance of those
  records over a parsed JSON tree. It covers required and optional members,
  `null` treated as absent, the 64-bit `Int` range and all-or-nothing
  decoding, and it proves an encode/decode round trip.
- `Segment` (segment.dfy): the items of a segmented control, which are the
  variant texts sorted by `id`. It also covers the initial selection
  (position − 1) and the 1-based index in the message shown on change.
- `Render` (render.dfy): `updateView`, in two forms. The first is a loop
  (`UpdateView`) that accumulates widgets and the synchronous content
  height. The second is a functional plan (`PlanOf`) that the loop is proved
  equal to. For each name of the view list, the plan resolves an entry
  (first match, else entry 0), classifies its payload (image, then segment,
  then text, else nothing) and emits a widget tagged with its position.
  Lemmas prove order, completeness, priority and the height rule. The
  module also holds `PlanChecked`, a corrected planner (see Findings).
- `Appearance` (appearance.dfy): `updateStatus`, the label text and colour.
- `Fetch` (fetch.dfy): the view model's completion handler. It maps the url
  and response body to the published (status, document) pair. The byte
  parser is a parameter. The module also models the two published writes in
  source order, and a sequence of completions in which the last one decides the published pair.
- `Screen` (screen.dfy): the bindings that render every published document
  and show every published status.

Integers are unbounded. Swift's `Int` range is checked explicitly where
decoding depends on it (`Schema.IsInt`). The debounce, the network request,
image loading and everything UIKit does are not modelled. They appear only
as parameters, or are listed below.

Two behaviours are modelled as the code has them:

- An empty url does not skip the request: `AF.request` is still issued. The
  empty status comes from the handler's no-body branch when the url is
  empty. An empty url whose request nevertheless returned a body would be
  decoded like any other.
- Swift's `sorted(by:)` is stable. The model sorts by a stable insertion
  sort, and `Segment.SortIsStable` proves that variants sharing an id keep
  their relative order.

## Model

| member | source | states |
|---|---|---|
| `Model.EmptyDocument` | PryanikyTask/Model.swift:14-16 | the empty document has no entries and no names |
| `Model.StatusFromRaw` | PryanikyTask/Model.swift:43-47 | a raw string maps to the status whose raw value it is, and to nothing when no status has that raw value |
| `Model.RawValueRoundTrip` | PryanikyTask/Model.swift:43-47 | every status is recovered from its raw value |
| `Model.RawValueInjective` | PryanikyTask/Model.swift:43-47 | "Success", "Fail" and "" are pairwise distinct, so the raw value determines the status |
| `Model.WireKey` | PryanikyTask/Model.swift:30-34 | every payload field keeps its property name as its key, except `selectedID`, whose key is `"selectedId"` |
| `Model.FieldOfKey` | PryanikyTask/Model.swift:30-34 | a key names the field whose wire key it is, and any other key names no field |
| `Model.WireKeyInjective` | PryanikyTask/Model.swift:30-34 | distinct fields have distinct keys |
| `Model.PropertySpellingIsNotAKey` | PryanikyTask/Model.swift:27-32 | the spelling `selectedID` is not a key of any field |
| `Model.DuplicateVariantIdsRepresentable` | PryanikyTask/Model.swift:37-40 | two different variants may share an id |
| `Schema.RequiredString` | PryanikyTask/Model.swift:19-22 | a required string member decodes only when the key is present and holds a string |
| `Schema.RequiredInt` | PryanikyTask/Model.swift:37-40 | a required integer decodes only when present, numeric and within the 64-bit range |
| `Schema.OptionalString` | PryanikyTask/Model.swift:25-26 | an absent or null optional member decodes to nothing, a string decodes to itself, and it fails iff the member is present and neither null nor a string |
| `Schema.OptionalInt` | PryanikyTask/Model.swift:27 | an absent or null member decodes to nothing, a number within the 64-bit range decodes to itself, and it fails iff the member is present and neither null nor such a number |
| `Schema.DecodeVariant` | PryanikyTask/Model.swift:37-40 | a variant decodes iff it is an object whose `id` decodes as an integer and whose `text` decodes as a string; a decoded variant holds exactly those two members |
| `Schema.DecodeVariants` | PryanikyTask/Model.swift:28 | a variant array decodes iff every element does, and element by element |
| `Schema.OptionalVariants` | PryanikyTask/Model.swift:28 | an absent or null member decodes to nothing; an array decodes iff each element is a variant, and then to those variants in order; any other value fails |
| `Schema.DecodeInternalData` | PryanikyTask/Model.swift:24-35 | a payload decodes iff it is an object whose four optional members each decode, and then holds exactly those four results; an object with none of the keys is all-absent, and `selectedID` comes from `"selectedId"` |
| `Schema.DecodeDatum` | PryanikyTask/Model.swift:19-22 | an entry decodes iff it is an object whose `name` is a string and whose `data` decodes as a payload, and then holds that name and payload; an entry without `name` or `data` fails |
| `Schema.DecodeData` | PryanikyTask/Model.swift:11 | the entry array decodes iff every entry does, and in order |
| `Schema.DecodeNames` | PryanikyTask/Model.swift:12 | the view list decodes iff every element is a string, and in order |
| `Schema.DecodeViewData` | PryanikyTask/Model.swift:10-13 | a document decodes iff it is an object whose `data` and `view` are arrays that decode as entries and as names, and then holds exactly those entries and names; a document without `data` or `view` fails |
| `Schema.InternalDataRoundTrip` | PryanikyTask/Model.swift:24-35 | decoding an encoded payload gives it back, whichever fields are present |
| `Schema.ViewDataRoundTrip` | PryanikyTask/Model.swift:10-40 | decoding an encoded document gives it back when its integers fit `Int` |
| `Segment.SortById` | PryanikyTask/ViewController.swift:214 | the variants are reordered by non-decreasing id as a permutation of the input |
| `Segment.ItemsArePermutationOfTexts` | PryanikyTask/ViewController.swift:214 | the control's items are exactly the variant texts, with duplicates, in some order |
| `Segment.SortIsStable` | PryanikyTask/ViewController.swift:214 | variants sharing an id keep their relative order through the sort |
| `Segment.SortOfSortedIsIdentity` | PryanikyTask/ViewController.swift:214 | variants already ordered by id are shown in their given order |
| `Segment.SortIsIdempotent` | PryanikyTask/ViewController.swift:214 | sorting the sorted variants again changes nothing |
| `Segment.InitialSelection` | PryanikyTask/ViewController.swift:215 | the preselected index is one less than the widget's position, never below -1, and it is -1 (no segment) exactly for position 0 |
| `Segment.ReportedChoice` | PryanikyTask/ViewController.swift:124-127 | the message reports the 1-based ordinal of the chosen item: between 1 and the number of items, and the position whose initial selection is that item |
| `Render.FirstIndexOfIsFirst` | PryanikyTask/ViewController.swift:86 | the index found carries the name and no earlier entry does, or no entry carries it |
| `Render.ResolvePicksFirstMatch` | PryanikyTask/ViewController.swift:86 | the payload shown is that of the first entry with the name, or that of entry 0 when none has it |
| `Render.MissingNameFallsBack` | PryanikyTask/ViewController.swift:86 | a name with no entry is shown as entry 0 |
| `Render.Classify` | PryanikyTask/ViewController.swift:87-110 | image iff text and url are present; segment iff not an image and both choice fields are present; text iff neither and text is present; otherwise nothing |
| `Render.ImageTakesPriority` | PryanikyTask/ViewController.swift:87-94 | text plus url is an image, whatever the choice fields hold |
| `Render.TextAndNothingConditions` | PryanikyTask/ViewController.swift:95-110 | text iff text present, url absent and not both choice fields; nothing iff no text and not both choice fields |
| `Render.WidgetFor` | PryanikyTask/ViewController.swift:87-110 | each kind yields its widget with the given name and position; a segment shows the variant texts in id-sorted order (`Segment.Items`) and preselects position − 1, so its items are the texts with duplicates |
| `Render.UpdateView` | PryanikyTask/ViewController.swift:74-112 | the loop discards the previous plan, equals the functional plan, emits at most one widget per name and nothing for an empty view list |
| `Render.CollectIsTagged` | PryanikyTask/ViewController.swift:85 | every emitted widget is the result for the name at its position |
| `Render.CollectIsOrdered` | PryanikyTask/ViewController.swift:85 | emitted widgets appear with strictly increasing positions |
| `Render.CollectIsComplete` | PryanikyTask/ViewController.swift:87-110 | every name that classifies as a widget has its widget emitted |
| `Render.HeightCountsFixedWidgets` | PryanikyTask/ViewController.swift:162 | the height counts text and segment widgets only: it is at most one increment per widget, full iff there is no image, and zero iff all widgets are images |
| `Render.PlanProperties` | PryanikyTask/ViewController.swift:74-112 | the plan is ordered, tagged with view positions and names, complete, and its height is 42 per non-image widget |
| `Render.SegmentIgnoresSelectedID` | PryanikyTask/ViewController.swift:87-102 | for every payload shown as a segment, with or without `text`, the widget does not depend on the payload's `selectedID`; its items are the id-sorted texts and its selection is position − 1 |
| `Render.InitialSelectionReportsPosition` | PryanikyTask/ViewController.swift:127 | reporting the initial selection gives an ordinal equal to the widget's 0-based position |
| `Render.TwoTextsExample` | PryanikyTask/ViewController.swift:103-109 | two text entries give two text widgets in view order and height 84 |
| `Render.ChoiceExample` | PryanikyTask/ViewController.swift:213-215 | variants with ids 2 and 1 are shown in order "A", "B", and position 1 preselects index 0 whatever `selectedID` says, with or without a `text` member |
| `Render.PlanChecked` | PryanikyTask/ViewController.swift:86 | corrected planner: total, equal to the plan wherever `updateView` does not trap, and empty for a document without entries |
| `Appearance.StatusColor` | PryanikyTask/ViewController.swift:62-72 | success is green, fail is red, empty is black, and each colour belongs to one status |
| `Appearance.StatusLabel` | PryanikyTask/ViewController.swift:62-63 | the label text is the status's raw value |
| `Appearance.LabelDeterminesStatus` | PryanikyTask/ViewController.swift:62-72 | the label text alone, and the colour alone, each determine the status |
| `Fetch.Initial` | PryanikyTask/ViewModel.swift:14-15 | before any fetch the status is empty and the document is empty |
| `Fetch.DecodeOfEncoded` | PryanikyTask/ViewModel.swift:34 | a body that parses to the encoding of a document whose integers fit `Int` decodes to that document |
| `Fetch.HandleResponse` | PryanikyTask/ViewModel.swift:23-40 | no body: empty status for an empty url, fail otherwise, with the empty document; a body that decodes: success with the decoded document; one that does not decode: fail with the empty document |
| `Fetch.OutcomeInvariant` | PryanikyTask/ViewModel.swift:23-40 | a status other than success comes with the empty document; success happens iff a body arrived and decoded, and then carries the decoded document; the empty status happens iff there is no body and the url is empty |
| `Fetch.Writes` | PryanikyTask/ViewModel.swift:24-38 | the handler's two published writes: the document first on success, the status first otherwise, and the second write is the final pair |
| `Fetch.IntermediateWriteMayBeInconsistent` | PryanikyTask/ViewModel.swift:24-31 | after a success, a failed fetch briefly publishes fail together with the old document |
| `Fetch.Run` | PryanikyTask/ViewModel.swift:20-41 | no completion leaves the pair unchanged; otherwise the published pair is the one the last completion's handler produces |
| `Fetch.RunKeepsConsistency` | PryanikyTask/ViewModel.swift:20-41 | starting from a consistent pair, every sequence of completions leaves a consistent pair |
| `Fetch.InitialIsConsistent` | PryanikyTask/ViewModel.swift:14-15 | the initial pair is consistent |
| `Screen.Present` | PryanikyTask/ViewController.swift:39-72 | the screen shows the plan of the published document, and its label carries the published status's raw value in that status's colour |
| `Screen.NoWidgetsUnlessSuccess` | PryanikyTask/ViewController.swift:39-49 | after any sequence of completions, a screen not labelled success shows no widgets and has height 0 |
| `Screen.DecodedDocumentCanTrap` | PryanikyTask/ViewController.swift:86 | a document with no entries and one name decodes and is published by the handler's first write, while the status is still the previous one, and `updateView` cannot render it, so it traps before the status write that would publish success |

## Findings

| source | as written | input that shows it | evidently intended | confidence | as-written member | corrected member |
|---|---|---|---|---|---|---|
| PryanikyTask/ViewController.swift:86 | a name with no matching entry falls back to index 0, which traps when the document has no entries | `{"data": [], "view": ["x"]}` decodes and is published as the document (the first of the handler's two writes); the `$data` binding's `updateView` indexes `data[0]` of an empty array and traps before `status = .success` runs | a name without a matching entry never traps; with no entries to fall back to, it is skipped | medium, not executed | `Screen.DecodedDocumentCanTrap` | `Render.PlanChecked` |

`Render.UpdateView` keeps the as-written precondition (`CanRender`: no
names, or at least one entry). `Screen.Present` renders through
`Render.PlanChecked`.

## Left out

- UIKit views and Auto Layout: subviews, constraints, anchors, gesture recognisers, alerts, keyboard handling and the rotation observer. They have no state beyond the plan. A rotation re-runs `updateView` on the current document, and `Render.UpdateView` ignores the previous plan.
- Accessibility-identifier strings and alert texts. They are presentation strings, and the segment one depends on Swift's default `description` of an array.
- Image loading (Kingfisher) and the aspect-ratio height added when an image finishes loading. This is asynchronous floating-point arithmetic, so the model's height is the synchronous part only.
- The network request (Alamofire), the 0.3 s debounce, `@Published` delivery and `[weak self]`. These are timing, lifetime and foreign calls. The response body is a parameter, and a sequence of completions stands for the requests that finish.
- The byte-level JSON parser. It is the `parse` parameter of `Fetch.HandleResponse`. JSON numbers are integers only, so fractional and exponent forms are not modelled.
- The `print` of decode errors. It is diagnostics only.
- UIKit's treatment of an initial selection index at or beyond the number of items. The model records position − 1 as assigned.
- `Render.FirstIndexOfIsFirst`: `Render.FirstIndexOf` compares names character by character, whereas Swift's `String ==` compares by canonical equivalence. The two agree when the names in `view` and in `data` use the same Unicode normal form; the model has no Unicode normalisation.
- `Render.ResolvePicksFirstMatch`: "first entry with the name" uses the same character-by-character equality as `Render.FirstIndexOf`, so names equal only up to canonical equivalence are treated as different.
- `Render.MissingNameFallsBack`: "no entry has the name" uses the same character-by-character equality as `Render.FirstIndexOf`.

=== FILE: appearance.dfy ===
/** `updateStatus`: the status label shows the raw value of the status in a
    colour chosen by the status. */
module Appearance {
  import opened Wrappers
  import opened Model

  datatype Color = Green | Red | Black

  datatype Label = Label(text: string, color: Color)

  /** Success is green, failure red, and the empty status black. */
  function StatusColor(s: Status): (c: Color)
    ensures c == Green <==> s == Success
    ensures c == Red <==> s == Fail
    ensures c == Black <==> s == Empty
  {
    match s
    case Success => Green
    case Fail => Red
    case Empty => Black
  }

  function StatusLabel(s: Status): (l: Label)
    ensures StatusFromRaw(l.text) == Some(s)
    ensures l.color == StatusColor(s)
  {
    RawValueRoundTrip(s);
    Label(RawValue(s), StatusColor(s))
  }

  /** Either half of the label on its own tells which status is shown. */
  lemma LabelDeterminesStatus(a: Status, b: Status)
    ensures StatusLabel(a).text == StatusLabel(b).text <==> a == b
    ensures StatusLabel(a).color == StatusLabel(b).color <==> a == b
  {
    RawValueInjective(a, b);
  }
}

=== FILE: fetch.dfy ===
/** The view model: the completion handler that turns one fetch result into
    the published (status, document) pair, and the sequence of completions
    over time, of which the last one wins. The network request and the JSON
    parser are parameters: `body` is what the request delivered, `parse` is
    the byte-level parser, and `Schema.DecodeViewData` does the rest. */
module Fetch {
  import opened Wrappers
  import opened Model
  import Schema

  type Byte = b: int | 0 <= b < 256

  /** The two published properties. */
  datatype FetchState = FetchState(status: Status, data: ViewData)

  /** The pair before any fetch has completed. */
  function Initial(): (s: FetchState)
    ensures s.status == Empty && |s.data.data| == 0 && |s.data.view| == 0
  {
    FetchState(Empty, EmptyDocument())
  }

  /** `JSONDecoder().decode(ViewData.self, from:)`. */
  function Decode(parse: seq<Byte> -> Option<Schema.Json>, bytes: seq<Byte>): (r: Result<ViewData, Schema.DecodeError>)
    ensures parse(bytes).None? ==> r == Err(Schema.DataCorrupted)
    ensures r.Ok? ==> parse(bytes).Some? && Schema.DecodeViewData(parse(bytes).value) == r
  {
    match parse(bytes)
    case None => Err(Schema.DataCorrupted)
    case Some(j) => Schema.DecodeViewData(j)
  }

  /** A body that parses to the encoding of a document decodes to that
      document: the decoder reads back what the wire format carries. */
  lemma DecodeOfEncoded(parse: seq<Byte> -> Option<Schema.Json>, bytes: seq<Byte>, vd: ViewData)
    requires Schema.DocumentFits(vd) && parse(bytes) == Some(Schema.EncodeViewData(vd))
    ensures Decode(parse, bytes) == Ok(vd)
  {
    Schema.ViewDataRoundTrip(vd);
  }

  /** Status other than success always comes with the empty document. */
  predicate Consistent(s: FetchState)
  {
    s.status != Success ==> s.data == EmptyDocument()
  }

  /** The completion handler for a request to `url`. Without a body the
      status is empty for an empty url and a failure otherwise; a body that
      decodes is published with success; one that does not is a failure. */
  function HandleResponse(url: string, body: Option<seq<Byte>>, parse: seq<Byte> -> Option<Schema.Json>): (s: FetchState)
    ensures body.None? && |url| == 0 ==> s == FetchState(Empty, EmptyDocument())
    ensures body.None? && |url| > 0 ==> s == FetchState(Fail, EmptyDocument())
    ensures body.Some? && Decode(parse, body.value).Ok? ==> s == FetchState(Success, Decode(parse, body.value).value)
    ensures body.Some? && Decode(parse, body.value).Err? ==> s == FetchState(Fail, EmptyDocument())
  {
    match body
    case None => FetchState(if |url| == 0 then Empty else Fail, EmptyDocument())
    case Some(json) =>
      match Decode(parse, json)
      case Ok(doc) => FetchState(Success, doc)
      case Err(_) => FetchState(Fail, EmptyDocument())
  }

  /** Every outcome is consistent, success happens exactly when a body
      arrived and decoded, and then the document is the decoded one. */
  lemma OutcomeInvariant(url: string, body: Option<seq<Byte>>, parse: seq<Byte> -> Option<Schema.Json>)
    ensures Consistent(HandleResponse(url, body, parse))
    ensures HandleResponse(url, body, parse).status == Success <==> body.Some? && Decode(parse, body.value).Ok?
    ensures HandleResponse(url, body, parse).status == Success ==> HandleResponse(url, body, parse).data == Decode(parse, body.value).value
    ensures HandleResponse(url, body, parse).status == Empty <==> body.None? && |url| == 0
  {
  }

  /** The handler assigns the two properties one after the other, and each
      assignment is published. These are the pairs after each assignment:
      without a body or on a decode error the status is written first, on
      success the document is. */
  function Writes(prev: FetchState, url: string, body: Option<seq<Byte>>, parse: seq<Byte> -> Option<Schema.Json>): (w: seq<FetchState>)
    ensures |w| == 2
    ensures w[1] == HandleResponse(url, body, parse)
    ensures w[1].status == Success ==> w[0] == FetchState(prev.status, w[1].data)
    ensures w[1].status != Success ==> w[0] == FetchState(w[1].status, prev.data)
  {
    match body
    case None =>
      var status := if |url| == 0 then Empty else Fail;
      [FetchState(status, prev.data), FetchState(status, EmptyDocument())]
    case Some(json) =>
      match Decode(parse, json)
      case Ok(doc) => [FetchState(prev.status, doc), FetchState(Success, doc)]
      case Err(_) => [FetchState(Fail, prev.data), FetchState(Fail, EmptyDocument())]
  }

  /** The consistency holds after the handler, not between its two writes:
      a success followed by a failed fetch briefly publishes a failure
      together with the old document. */
  lemma IntermediateWriteMayBeInconsistent(doc: ViewData)
    requires doc != EmptyDocument()
    ensures var w := Writes(FetchState(Success, doc), "u", None, (b: seq<Byte>) => None);
      !Consistent(w[0]) && Consistent(w[1])
  {
  }

  /** One completed request: the url it was made for and the body it got. */
  datatype Completion = Completion(url: string, body: Option<seq<Byte>>)

  /** Applies completions in the order they arrive. The handler ignores the
      pair it replaces, so only the last completion matters. */
  function Run(s: FetchState, cs: seq<Completion>, parse: seq<Byte> -> Option<Schema.Json>): (r: FetchState)
    ensures |cs| == 0 ==> r == s
    ensures |cs| > 0 ==> r == HandleResponse(cs[|cs| - 1].url, cs[|cs| - 1].body, parse)
    decreases |cs|
  {
    if |cs| == 0 then s
    else
      assert |cs| == 1 || cs[1..][|cs| - 2] == cs[|cs| - 1];
      Run(HandleResponse(cs[0].url, cs[0].body, parse), cs[1..], parse)
  }

  /** Starting from the initial pair, the published pair is always consistent. */
  lemma {:induction false} RunKeepsConsistency(s: FetchState, cs: seq<Completion>, parse: seq<Byte> -> Option<Schema.Json>)
    requires Consistent(s)
    ensures Consistent(Run(s, cs, parse))
    decreases |cs|
  {
    if |cs| > 0 {
      OutcomeInvariant(cs[0].url, cs[0].body, parse);
      RunKeepsConsistency(HandleResponse(cs[0].url, cs[0].body, parse), cs[1..], parse);
    }
  }

  lemma InitialIsConsistent()
    ensures Consistent(Initial())
  {
  }
}

=== FILE: model.dfy ===
/** The decoded document (`ViewData`), its entries, the payload record whose
    optional fields decide the widget kind, and the tri-state fetch status. */
module Model {
  import opened Wrappers

  /** One choice of a segmented control. `id` orders the choices and is not
      required to be unique. */
  datatype Variant = Variant(id: int, text: string)

  /** The payload of an entry. Every field is optional; the combination of
      present fields selects the widget kind. */
  datatype InternalData = InternalData(
    text: Option<string>,
    url: Option<string>,
    selectedID: Option<int>,
    variants: Option<seq<Variant>>)

  /** A named payload; `view` refers to entries by `name`. */
  datatype Datum = Datum(name: string, data: InternalData)

  /** The whole document: entries plus the ordered list of names to show. */
  datatype ViewData = ViewData(data: seq<Datum>, view: seq<string>)

  /** The canonical empty document (`ViewData.empty`). */
  function EmptyDocument(): (e: ViewData)
    ensures |e.data| == 0 && |e.view| == 0
  {
    ViewData([], [])
  }

  /** Outcome of the most recent fetch. The source spells the third case
      `epmty`; its raw value is the empty string. */
  datatype Status = Success | Fail | Empty

  /** The raw string of a status, as shown in the status label. */
  function RawValue(s: Status): string
  {
    match s
    case Success => "Success"
    case Fail => "Fail"
    case Empty => ""
  }

  /** Swift's failable `Status(rawValue:)`. */
  function StatusFromRaw(raw: string): (r: Option<Status>)
    ensures r.Some? ==> RawValue(r.value) == raw
    ensures r.None? ==> forall s: Status :: RawValue(s) != raw
  {
    if raw == "Success" then Some(Success)
    else if raw == "Fail" then Some(Fail)
    else if raw == "" then Some(Empty)
    else None
  }

  /** Every status survives the trip through its raw value. */
  lemma RawValueRoundTrip(s: Status)
    ensures StatusFromRaw(RawValue(s)) == Some(s)
  {
  }

  /** The raw values are pairwise distinct, so the label text names the status. */
  lemma RawValueInjective(a: Status, b: Status)
    ensures RawValue(a) == RawValue(b) <==> a == b
  {
    RawValueRoundTrip(a);
    RawValueRoundTrip(b);
  }

  /** The four optional payload fields. */
  datatype PayloadField = TextField | UrlField | SelectedIDField | VariantsField

  /** The Swift property name of a payload field. */
  function PropertyName(f: PayloadField): string
  {
    match f
    case TextField => "text"
    case UrlField => "url"
    case SelectedIDField => "selectedID"
    case VariantsField => "variants"
  }

  /** The JSON key of a payload field (the `CodingKeys` enumeration). */
  function WireKey(f: PayloadField): (k: string)
    ensures f != SelectedIDField ==> k == PropertyName(f)
    ensures f == SelectedIDField ==> k == "selectedId" && k != PropertyName(f)
  {
    match f
    case TextField => "text"
    case UrlField => "url"
    case SelectedIDField => "selectedId"
    case VariantsField => "variants"
  }

  /** The field a JSON key belongs to, if any; keys outside the four are
      ignored by the decoder. */
  function FieldOfKey(key: string): (r: Option<PayloadField>)
    ensures r.Some? ==> WireKey(r.value) == key
    ensures r.None? ==> forall f: PayloadField :: WireKey(f) != key
  {
    if key == "text" then Some(TextField)
    else if key == "url" then Some(UrlField)
    else if key == "selectedId" then Some(SelectedIDField)
    else if key == "variants" then Some(VariantsField)
    else None
  }

  /** Every field is found again from its key; hence the key mapping is injective. */
  lemma WireKeyRoundTrip(f: PayloadField)
    ensures FieldOfKey(WireKey(f)) == Some(f)
  {
  }

  lemma WireKeyInjective(f: PayloadField, g: PayloadField)
    ensures WireKey(f) == WireKey(g) <==> f == g
  {
    WireKeyRoundTrip(f);
    WireKeyRoundTrip(g);
  }

  /** The Swift property spelling `selectedID` is not a wire key at all. */
  lemma PropertySpellingIsNotAKey()
    ensures FieldOfKey(PropertyName(SelectedIDField)) == None
  {
  }

  /** Nothing forbids two variants with the same `id`. */
  lemma DuplicateVariantIdsRepresentable()
    ensures var p := InternalData(None, None, Some(0), Some([Variant(1, "A"), Variant(1, "B")]));
            p.variants.value[0].id == p.variants.value[1].id && p.variants.value[0] != p.variants.value[1]
  {
  }
}

=== FILE: render.dfy ===
/** The render plan computed by `updateView`: for each name of the view list,
    in order, resolve an entry, classify its payload by the fields present,
    and emit at most one widget tagged with the name's position. Text and
    segment widgets each add a fixed amount to the content height at once;
    images add theirs only when their picture has loaded, which is not part
    of this model. */
module Render {
  import opened Wrappers
  import opened Model
  import Segment

  /** Content height added by a text or segment widget: its fixed height of
      32 plus the spacing of 10 above it. */
  const FixedIncrement: nat := 42

  // ---------------------------------------------------------------- lookup

  /** `firstIndex(where: { $0.name == name })`: entries are scanned from
      index 0 and the first one carrying the name is taken. That no earlier
      entry carries it is stated by `FirstIndexOfIsFirst`. */
  function FirstIndexOf(data: seq<Datum>, name: string): (r: Option<nat>)
    ensures r.Some? ==> r.value < |data| && data[r.value].name == name
  {
    FirstIndexFrom(data, name, 0)
  }

  /** The scan of `FirstIndexOf` from index `start` on. */
  function FirstIndexFrom(data: seq<Datum>, name: string, start: nat): (r: Option<nat>)
    requires start <= |data|
    ensures r.Some? ==> start <= r.value < |data| && data[r.value].name == name
    decreases |data| - start
  {
    if start == |data| then None
    else if data[start].name == name then Some(start)
    else FirstIndexFrom(data, name, start + 1)
  }

  lemma {:induction false} FirstIndexFromIsFirst(data: seq<Datum>, name: string, start: nat)
    requires start <= |data|
    ensures var r := FirstIndexFrom(data, name, start);
            r.Some? ==> forall j :: start <= j < r.value ==> data[j].name != name
    ensures FirstIndexFrom(data, name, start).None? ==> forall j :: start <= j < |data| ==> data[j].name != name
    decreases |data| - start
  {
    if start < |data| && data[start].name != name {
      FirstIndexFromIsFirst(data, name, start + 1);
    }
  }

  /** The index found is the first carrying the name, and no index is found
      only when no entry carries it. */
  lemma FirstIndexOfIsFirst(data: seq<Datum>, name: string)
    ensures var r := FirstIndexOf(data, name);
            r.Some? ==> r.value < |data| && data[r.value].name == name && forall j :: 0 <= j < r.value ==> data[j].name != name
    ensures FirstIndexOf(data, name).None? ==> forall j :: 0 <= j < |data| ==> data[j].name != name
  {
    FirstIndexFromIsFirst(data, name, 0);
  }

  /** The payload shown for `name`. Indexing entry 0 traps when there are
      no entries, hence the precondition. What it returns is stated by
      `ResolvePicksFirstMatch`. */
  function Resolve(data: seq<Datum>, name: string): InternalData
    requires |data| > 0
  {
    data[FirstIndexOf(data, name).GetOr(0)].data
  }

  /** The payload shown is that of the first entry carrying the name, or that
      of the first entry of all when none does. */
  lemma ResolvePicksFirstMatch(data: seq<Datum>, name: string)
    requires |data| > 0
    ensures (forall j :: 0 <= j < |data| ==> data[j].name != name) ==> Resolve(data, name) == data[0].data
    ensures forall j :: 0 <= j < |data| && data[j].name == name && (forall k :: 0 <= k < j ==> data[k].name != name)
                     ==> Resolve(data, name) == data[j].data
  {
    FirstIndexOfIsFirst(data, name);
  }

  // ---------------------------------------------------------------- classification

  /** The widget kind a payload is shown as. */
  datatype Kind =
    | ImageKind(url: string, caption: string)
    | SegmentKind(selectedID: int, variants: seq<Variant>)
    | TextKind(text: string)
    | NoWidget

  /** The fields an image and a segment need, each considered on its own;
      a text needs only `text`. */
  predicate HasImageFields(p: InternalData) { p.text.Some? && p.url.Some? }
  predicate HasSegmentFields(p: InternalData) { p.selectedID.Some? && p.variants.Some? }

  /** The first kind, in the order image, segment, text, whose fields are all
      present; a payload with none of them gives no widget. */
  function Classify(p: InternalData): (k: Kind)
    ensures k.ImageKind? <==> HasImageFields(p)
    ensures k.SegmentKind? <==> !HasImageFields(p) && HasSegmentFields(p)
    ensures k.TextKind? <==> !HasImageFields(p) && !HasSegmentFields(p) && p.text.Some?
    ensures k.ImageKind? ==> p.url == Some(k.url) && p.text == Some(k.caption)
    ensures k.SegmentKind? ==> p.selectedID == Some(k.selectedID) && p.variants == Some(k.variants)
    ensures k.TextKind? ==> p.text == Some(k.text)
  {
    if p.text.Some? && p.url.Some? then ImageKind(p.url.value, p.text.value)
    else if p.selectedID.Some? && p.variants.Some? then SegmentKind(p.selectedID.value, p.variants.value)
    else if p.text.Some? then TextKind(p.text.value)
    else NoWidget
  }

  /** Text and url together make an image whatever else is present. */
  lemma ImageTakesPriority(text: string, url: string, sel: Option<int>, vs: Option<seq<Variant>>)
    ensures Classify(InternalData(Some(text), Some(url), sel, vs)) == ImageKind(url, text)
  {
  }

  /** A text widget needs the text, no url, and not both choice fields; any
      payload matching no kind yields nothing. */
  lemma TextAndNothingConditions(p: InternalData)
    ensures Classify(p).TextKind? <==> p.text.Some? && p.url.None? && !(p.selectedID.Some? && p.variants.Some?)
    ensures Classify(p) == NoWidget <==> p.text.None? && !(p.selectedID.Some? && p.variants.Some?)
  {
  }

  // ---------------------------------------------------------------- widgets

  datatype Widget =
    | TextWidget(name: string, position: nat, text: string)
    | ImageWidget(name: string, position: nat, url: string, caption: string)
    | SegmentWidget(name: string, position: nat, items: seq<string>, selected: int)

  /** What `addTextView`, `addImageView` and `addSegmentView` build. The
      payload's `selectedID` is not used. */
  function WidgetFor(name: string, position: nat, k: Kind): (w: Option<Widget>)
    ensures w.Some? <==> !k.NoWidget?
    ensures w.Some? ==> w.value.name == name && w.value.position == position
    ensures k.ImageKind? ==> w == Some(ImageWidget(name, position, k.url, k.caption))
    ensures k.TextKind? ==> w == Some(TextWidget(name, position, k.text))
    ensures k.SegmentKind? ==> w == Some(SegmentWidget(name, position, Segment.Items(k.variants), Segment.InitialSelection(position)))
    ensures k.SegmentKind? ==> (w.value.SegmentWidget? && w.value.selected == position - 1
                               && multiset(w.value.items) == multiset(Segment.Texts(k.variants)))
  {
    match k
    case ImageKind(url, caption) => Some(ImageWidget(name, position, url, caption))
    case SegmentKind(_, vs) =>
      Segment.ItemsArePermutationOfTexts(vs);
      Some(SegmentWidget(name, position, Segment.Items(vs), Segment.InitialSelection(position)))
    case TextKind(text) => Some(TextWidget(name, position, text))
    case NoWidget => None
  }

  /** A document `updateView` can process without trapping. */
  predicate CanRender(vd: ViewData)
  {
    |vd.view| == 0 || |vd.data| > 0
  }

  /** The widget, if any, for the name at position `i`. */
  function Entry(vd: ViewData, i: nat): Option<Widget>
    requires CanRender(vd) && i < |vd.view|
  {
    WidgetFor(vd.view[i], i, Classify(Resolve(vd.data, vd.view[i])))
  }

  /** The per-name results of one rendering, indexed by position. */
  function Entries(vd: ViewData): (es: seq<Option<Widget>>)
    requires CanRender(vd)
    ensures |es| == |vd.view|
    ensures forall i :: 0 <= i < |es| ==> es[i] == Entry(vd, i)
  {
    seq(|vd.view|, i requires 0 <= i < |vd.view| => Entry(vd, i))
  }

  /** The emitted widgets of a run of per-name results, in order. */
  function Collect(es: seq<Option<Widget>>): seq<Widget>
  {
    if |es| == 0 then []
    else match es[|es| - 1]
      case None => Collect(es[..|es| - 1])
      case Some(w) => Collect(es[..|es| - 1]) + [w]
  }

  /** Extending a run by one result emits that result's widget, if any. */
  lemma CollectStep(es: seq<Option<Widget>>, prev: seq<Widget>, i: nat, x: Option<Widget>)
    requires i < |es| && prev == Collect(es[..i]) && es[i] == x
    ensures Collect(es[..i + 1]) == prev + (match x case Some(w) => [w] case None => [])
  {
    assert es[..i + 1][..i] == es[..i];
  }

  /** Every result carries its own position. */
  predicate Tagged(es: seq<Option<Widget>>)
  {
    forall i :: 0 <= i < |es| && es[i].Some? ==> es[i].value.position == i
  }

  /** The number of widgets of fixed height (text and segment). */
  function FixedCount(ws: seq<Widget>): nat
  {
    if |ws| == 0 then 0
    else FixedCount(ws[..|ws| - 1]) + (if ws[|ws| - 1].ImageWidget? then 0 else 1)
  }

  lemma FixedCountAppend(ws: seq<Widget>, w: Widget)
    ensures FixedCount(ws + [w]) == FixedCount(ws) + (if w.ImageWidget? then 0 else 1)
  {
    assert (ws + [w])[..|ws|] == ws;
  }

  /** The outcome of one rendering: the widgets in display order and the
      content height known as soon as they are laid out. */
  datatype Plan = Plan(widgets: seq<Widget>, height: nat)

  function PlanOf(vd: ViewData): Plan
    requires CanRender(vd)
  {
    var ws := Collect(Entries(vd));
    Plan(ws, FixedIncrement * FixedCount(ws))
  }

  // ---------------------------------------------------------------- updateView

  /** The widgets emitted for the first `i` names, in order: the same run as
      `Collect(Entries(vd)[..i])` (`EmittedIsCollected`), stated name by name
      so that the loop of `UpdateView` can keep it as its invariant without
      the verifier unfolding every entry of the document at each step. */
  function Emitted(vd: ViewData, i: nat): seq<Widget>
    requires CanRender(vd) && i <= |vd.view|
  {
    if i == 0 then []
    else Emitted(vd, i - 1) + (match Entry(vd, i - 1) case Some(w) => [w] case None => [])
  }

  /** Emitting name by name yields the plan's widgets. */
  lemma {:induction false} EmittedIsCollected(vd: ViewData, i: nat)
    requires CanRender(vd) && i <= |vd.view|
    ensures Emitted(vd, i) == Collect(Entries(vd)[..i])
  {
    if i > 0 {
      EmittedIsCollected(vd, i - 1);
      CollectStep(Entries(vd), Emitted(vd, i - 1), i - 1, Entry(vd, i - 1));
    }
  }

  /** Emitting every name yields exactly the plan's widgets. */
  lemma EmittedIsPlan(vd: ViewData)
    requires CanRender(vd)
    ensures Emitted(vd, |vd.view|) == PlanOf(vd).widgets
    ensures PlanOf(vd) == Plan(Emitted(vd, |vd.view|), FixedIncrement * FixedCount(Emitted(vd, |vd.view|)))
  {
    EmittedIsCollected(vd, |vd.view|);
    assert Entries(vd)[..|vd.view|] == Entries(vd);
  }

  /** One iteration of `updateView`'s loop: resolve the entry for the name at
      position `i`, then build the widget its payload classifies as. */
  method BuildEntry(vd: ViewData, i: nat) returns (built: Option<Widget>)
    requires CanRender(vd) && i < |vd.view|
    ensures built == Entry(vd, i)
  {
    var name := vd.view[i];
    var payload := Resolve(vd.data, name);
    built := WidgetFor(name, i, Classify(payload));
  }

  /** `updateView`: the previous widgets and height are discarded, then the
      names are visited in order and each emitted widget adds its height. */
  method UpdateView(previous: Plan, vd: ViewData) returns (plan: Plan)
    requires CanRender(vd)
    ensures plan == PlanOf(vd)
    ensures |vd.view| == 0 ==> plan == Plan([], 0)
    ensures |plan.widgets| <= |vd.view|
  {
    var widgets: seq<Widget> := [];
    var height: nat := 0;
    if |vd.view| == 0 {
      EmittedIsPlan(vd);
      return Plan(widgets, height);
    }
    var i := 0;
    while i < |vd.view|
      invariant 0 <= i <= |vd.view|
      invariant widgets == Emitted(vd, i)
      invariant |widgets| <= i
      invariant height == FixedIncrement * FixedCount(widgets)
    {
      var built := BuildEntry(vd, i);
      if built.Some? {
        FixedCountAppend(widgets, built.value);
        widgets := widgets + [built.value];
        if !built.value.ImageWidget? {
          height := height + FixedIncrement;
        }
      }
      i := i + 1;
    }
    EmittedIsPlan(vd);
    plan := Plan(widgets, height);
  }

  // ---------------------------------------------------------------- properties

  /** Each emitted widget is the result at its own position. */
  lemma {:induction false} CollectIsTagged(es: seq<Option<Widget>>)
    requires Tagged(es)
    ensures |Collect(es)| <= |es|
    ensures forall k :: 0 <= k < |Collect(es)| ==>
              (Collect(es)[k].position < |es| && es[Collect(es)[k].position] == Some(Collect(es)[k]))
  {
    if |es| > 0 {
      var init := es[..|es| - 1];
      assert Tagged(init) by {
        assert forall i :: 0 <= i < |init| ==> init[i] == es[i];
      }
      CollectIsTagged(init);
      assert forall i :: 0 <= i < |init| ==> init[i] == es[i];
    }
  }

  /** Emitted widgets appear in view order: positions strictly increase. */
  lemma {:induction false} CollectIsOrdered(es: seq<Option<Widget>>)
    requires Tagged(es)
    ensures forall k, l :: 0 <= k < l < |Collect(es)| ==> Collect(es)[k].position < Collect(es)[l].position
  {
    if |es| > 0 {
      var init := es[..|es| - 1];
      assert Tagged(init) by {
        assert forall i :: 0 <= i < |init| ==> init[i] == es[i];
      }
      CollectIsTagged(init);
      CollectIsOrdered(init);
    }
  }

  /** Every result that is a widget is emitted. */
  lemma {:induction false} CollectIsComplete(es: seq<Option<Widget>>, i: nat)
    requires i < |es| && es[i].Some?
    ensures es[i].value in Collect(es)
  {
    var init := es[..|es| - 1];
    if i < |es| - 1 {
      assert init[i] == es[i];
      CollectIsComplete(init, i);
    }
  }

  /** `CollectIsComplete` for every position at once. */
  lemma CollectHasEveryWidget(es: seq<Option<Widget>>)
    ensures forall i :: 0 <= i < |es| && es[i].Some? ==> es[i].value in Collect(es)
  {
    forall i | 0 <= i < |es| && es[i].Some?
      ensures es[i].value in Collect(es)
    {
      CollectIsComplete(es, i);
    }
  }

  lemma EntriesAreTagged(vd: ViewData)
    requires CanRender(vd)
    ensures Tagged(Entries(vd))
  {
  }

  /** The synchronous content height: a fixed increment per text or segment
      widget and nothing for images, so it lies between 0 and one increment
      per widget, reaching the top exactly when there is no image. */
  lemma {:induction false} HeightCountsFixedWidgets(ws: seq<Widget>)
    ensures FixedCount(ws) <= |ws|
    ensures FixedCount(ws) == |ws| <==> forall k :: 0 <= k < |ws| ==> !ws[k].ImageWidget?
    ensures FixedCount(ws) == 0 <==> forall k :: 0 <= k < |ws| ==> ws[k].ImageWidget?
  {
    if |ws| > 0 {
      var init := ws[..|ws| - 1];
      HeightCountsFixedWidgets(init);
      assert forall k :: 0 <= k < |init| ==> init[k] == ws[k];
      if FixedCount(ws) == |ws| {
        assert FixedCount(init) == |init|;
      }
    }
  }

  /** The plan's widgets appear in view order, at most one per name. */
  lemma PlanIsOrdered(vd: ViewData)
    requires CanRender(vd)
    ensures var ws := PlanOf(vd).widgets; |ws| <= |vd.view|
    ensures var ws := PlanOf(vd).widgets; forall k, l :: 0 <= k < l < |ws| ==> ws[k].position < ws[l].position
  {
    EntriesAreTagged(vd);
    CollectIsTagged(Entries(vd));
    CollectIsOrdered(Entries(vd));
  }

  /** Each widget of the plan is the one built for the name at its position. */
  lemma PlanIsTagged(vd: ViewData)
    requires CanRender(vd)
    ensures var ws := PlanOf(vd).widgets;
            forall k :: 0 <= k < |ws| ==>
              (ws[k].position < |vd.view| && ws[k].name == vd.view[ws[k].position] && Entry(vd, ws[k].position) == Some(ws[k]))
  {
    EntriesAreTagged(vd);
    CollectIsTagged(Entries(vd));
  }

  /** Every name that is shown as a widget has its widget in the plan. */
  lemma PlanIsComplete(vd: ViewData)
    requires CanRender(vd)
    ensures forall i :: 0 <= i < |vd.view| && Entry(vd, i).Some? ==> Entry(vd, i).value in PlanOf(vd).widgets
  {
    CollectHasEveryWidget(Entries(vd));
  }

  /** The plan for a document: ordered, each widget built for the name at
      its position, complete, and with the height rule. This gathers the
      three lemmas above with the height rule into one statement; they are
      kept apart only so that each proof stays small for the verifier. */
  lemma PlanProperties(vd: ViewData)
    requires CanRender(vd)
    ensures var ws := PlanOf(vd).widgets; |ws| <= |vd.view|
    ensures var ws := PlanOf(vd).widgets; forall k, l :: 0 <= k < l < |ws| ==> ws[k].position < ws[l].position
    ensures var ws := PlanOf(vd).widgets;
            forall k :: 0 <= k < |ws| ==>
              (ws[k].position < |vd.view| && ws[k].name == vd.view[ws[k].position] && Entry(vd, ws[k].position) == Some(ws[k]))
    ensures forall i :: 0 <= i < |vd.view| && Entry(vd, i).Some? ==> Entry(vd, i).value in PlanOf(vd).widgets
    ensures var p := PlanOf(vd); p.height <= FixedIncrement * |p.widgets|
    ensures var p := PlanOf(vd); p.height == 0 <==> forall k :: 0 <= k < |p.widgets| ==> p.widgets[k].ImageWidget?
  {
    PlanIsOrdered(vd);
    PlanIsTagged(vd);
    PlanIsComplete(vd);
    HeightCountsFixedWidgets(PlanOf(vd).widgets);
  }

  /** For every payload shown as a segment (with or without `text`), the
      widget shows the variant texts ordered by id and preselects
      position - 1; the payload's own `selectedID` makes no difference. */
  lemma SegmentIgnoresSelectedID(name: string, position: nat, p: InternalData, b: int)
    requires !HasImageFields(p) && HasSegmentFields(p)
    ensures WidgetFor(name, position, Classify(p)) == WidgetFor(name, position, Classify(p.(selectedID := Some(b))))
    ensures var w := WidgetFor(name, position, Classify(p)).value;
      w.SegmentWidget? && w.selected == position - 1 && w.items == Segment.Texts(Segment.SortById(p.variants.value))
  {
  }

  /** Reporting the initial selection back would give the 1-based ordinal
      equal to the widget's 0-based position. */
  lemma InitialSelectionReportsPosition(items: seq<string>, position: nat)
    requires 1 <= position <= |items|
    ensures Segment.ReportedChoice(items, Segment.InitialSelection(position)) == position
  {
  }

  /** Two text entries shown in view order. */
  lemma TwoTextsExample()
    ensures var vd := ViewData(
              [Datum("a", InternalData(Some("hi"), None, None, None)),
               Datum("b", InternalData(Some("lo"), None, None, None))],
              ["a", "b"]);
            PlanOf(vd) == Plan([TextWidget("a", 0, "hi"), TextWidget("b", 1, "lo")], 84)
  {
    var vd := ViewData(
              [Datum("a", InternalData(Some("hi"), None, None, None)),
               Datum("b", InternalData(Some("lo"), None, None, None))],
              ["a", "b"]);
    assert vd.data[0].name == "a" && vd.data[1].name == "b";
    assert Resolve(vd.data, "a") == vd.data[0].data;
    assert Resolve(vd.data, "b") == vd.data[1].data;
    var wa := TextWidget("a", 0, "hi");
    var wb := TextWidget("b", 1, "lo");
    assert Entry(vd, 0) == Some(wa);
    assert Entry(vd, 1) == Some(wb);
    var es := [Some(wa), Some(wb)];
    assert Entries(vd) == es;
    assert es[..1] == [Some(wa)] && es[..1][..0] == [];
    assert Collect(es[..1][..0]) == [];
    assert Collect(es[..1]) == [wa];
    assert Collect(es) == [wa] + [wb];
    var ws := [wa, wb];
    assert ws[..1] == [wa] && ws[..1][..0] == [];
    assert FixedCount(ws[..1][..0]) == 0;
    assert FixedCount(ws[..1]) == 1;
    assert FixedCount(ws) == 2;
  }

  /** Variants are shown ordered by id, and the preselected index comes from
      the position. */
  lemma ChoiceExample()
    ensures WidgetFor("c", 1, Classify(InternalData(None, None, Some(7), Some([Variant(2, "B"), Variant(1, "A")]))))
         == Some(SegmentWidget("c", 1, ["A", "B"], 0))
    ensures WidgetFor("c", 1, Classify(InternalData(Some("t"), None, Some(7), Some([Variant(2, "B"), Variant(1, "A")]))))
         == Some(SegmentWidget("c", 1, ["A", "B"], 0))
  {
    var vs := [Variant(2, "B"), Variant(1, "A")];
    assert vs[1..] == [Variant(1, "A")];
    assert Segment.SortById([Variant(1, "A")]) == [Variant(1, "A")];
    assert Segment.SortById(vs) == [Variant(1, "A"), Variant(2, "B")];
    assert Segment.Items(vs) == ["A", "B"];
  }

  /** A name without an entry shows the first entry. */
  lemma MissingNameFallsBack(vd: ViewData, i: nat)
    requires |vd.data| > 0 && i < |vd.view|
    requires forall j :: 0 <= j < |vd.data| ==> vd.data[j].name != vd.view[i]
    ensures Entry(vd, i) == WidgetFor(vd.view[i], i, Classify(vd.data[0].data))
  {
  }

  // ---------------------------------------------------------------- corrected planner

  /** The planner with the trap removed: with no entries at all there is
      nothing to fall back to, so every name is skipped. Everywhere else it
      agrees with `updateView`. */
  function PlanChecked(vd: ViewData): (p: Plan)
    ensures CanRender(vd) ==> p == PlanOf(vd)
    ensures |vd.data| == 0 ==> p == Plan([], 0)
  {
    if |vd.data| == 0 then Plan([], 0) else PlanOf(vd)
  }
}

=== FILE: schema.dfy ===
/** The synthesized `Codable` conformance of the records in `Model`, over an
    already-parsed JSON tree. The byte-level JSON parser is not part of this
    model; what is modelled is which keys are read, which are required, how
    absent and `null` optional values decode, and that one bad element fails
    the whole document. */
module Schema {
  import opened Wrappers
  import opened Model

  /** A parsed JSON value. Numbers are integers only. */
  datatype Json =
    | JNull
    | JBool(b: bool)
    | JNumber(n: int)
    | JString(s: string)
    | JArray(items: seq<Json>)
    | JObject(fields: map<string, Json>)

  /** Why decoding failed; `DataCorrupted` is the parser rejecting the bytes. */
  datatype DecodeError =
    | DataCorrupted
    | KeyNotFound(key: string)
    | ValueNotFound(key: string)
    | TypeMismatch(key: string)
    | NumberOutOfRange(key: string)

  /** Swift's `Int` on a 64-bit device. */
  const IntMin: int := -0x8000_0000_0000_0000
  const IntMax: int := 0x7fff_ffff_ffff_ffff

  predicate IsInt(n: int) {
    IntMin <= n <= IntMax
  }

  // ---------------------------------------------------------------- fields

  /** A required `String` member. */
  function RequiredString(obj: map<string, Json>, key: string): (r: Result<string, DecodeError>)
    ensures r.Ok? <==> key in obj && obj[key].JString?
    ensures r.Ok? ==> obj[key] == JString(r.value)
  {
    if key !in obj then Err(KeyNotFound(key))
    else match obj[key]
      case JString(s) => Ok(s)
      case JNull => Err(ValueNotFound(key))
      case _ => Err(TypeMismatch(key))
  }

  /** A required `Int` member. */
  function RequiredInt(obj: map<string, Json>, key: string): (r: Result<int, DecodeError>)
    ensures r.Ok? <==> key in obj && obj[key].JNumber? && IsInt(obj[key].n)
    ensures r.Ok? ==> obj[key] == JNumber(r.value)
  {
    if key !in obj then Err(KeyNotFound(key))
    else match obj[key]
      case JNumber(n) => if IsInt(n) then Ok(n) else Err(NumberOutOfRange(key))
      case JNull => Err(ValueNotFound(key))
      case _ => Err(TypeMismatch(key))
  }

  /** `decodeIfPresent` of a `String`: an absent key and `null` both give `None`. */
  function OptionalString(obj: map<string, Json>, key: string): (r: Result<Option<string>, DecodeError>)
    ensures (key !in obj || obj[key] == JNull) ==> r == Ok(None)
    ensures r.Ok? && r.value.Some? ==> key in obj && obj[key] == JString(r.value.value)
    ensures key in obj && obj[key].JString? ==> r == Ok(Some(obj[key].s))
    ensures r.Err? <==> key in obj && !obj[key].JNull? && !obj[key].JString?
  {
    if key !in obj then Ok(None)
    else match obj[key]
      case JNull => Ok(None)
      case JString(s) => Ok(Some(s))
      case _ => Err(TypeMismatch(key))
  }

  /** `decodeIfPresent` of an `Int`. */
  function OptionalInt(obj: map<string, Json>, key: string): (r: Result<Option<int>, DecodeError>)
    ensures (key !in obj || obj[key] == JNull) ==> r == Ok(None)
    ensures r.Ok? && r.value.Some? ==> key in obj && obj[key] == JNumber(r.value.value) && IsInt(r.value.value)
    ensures key in obj && obj[key].JNumber? && IsInt(obj[key].n) ==> r == Ok(Some(obj[key].n))
    ensures r.Err? <==> key in obj && !obj[key].JNull? && !(obj[key].JNumber? && IsInt(obj[key].n))
  {
    if key !in obj then Ok(None)
    else match obj[key]
      case JNull => Ok(None)
      case JNumber(n) => if IsInt(n) then Ok(Some(n)) else Err(NumberOutOfRange(key))
      case _ => Err(TypeMismatch(key))
  }

  // ---------------------------------------------------------------- records

  function DecodeVariant(j: Json): (r: Result<Variant, DecodeError>)
    ensures r.Ok? <==> j.JObject? && RequiredInt(j.fields, "id").Ok? && RequiredString(j.fields, "text").Ok?
    ensures j.JObject? && ("id" !in j.fields || "text" !in j.fields) ==> r.Err?
    ensures r.Ok? ==> j.JObject? && j.fields["id"] == JNumber(r.value.id) && IsInt(r.value.id)
                      && j.fields["text"] == JString(r.value.text)
  {
    match j
    case JObject(obj) =>
      (match RequiredInt(obj, "id")
       case Err(e) => Err(e)
       case Ok(id) =>
         match RequiredString(obj, "text")
         case Err(e) => Err(e)
         case Ok(text) => Ok(Variant(id, text)))
    case _ => Err(TypeMismatch("Variant"))
  }

  /** An array of variants; the first element that fails fails the array. */
  function DecodeVariants(items: seq<Json>): (r: Result<seq<Variant>, DecodeError>)
    ensures r.Ok? <==> forall i :: 0 <= i < |items| ==> DecodeVariant(items[i]).Ok?
    ensures r.Ok? ==> |r.value| == |items| && forall i :: 0 <= i < |items| ==> DecodeVariant(items[i]) == Ok(r.value[i])
  {
    if |items| == 0 then Ok([])
    else match DecodeVariant(items[0])
      case Err(e) => Err(e)
      case Ok(v) =>
        assert forall i :: 1 <= i < |items| ==> items[1..][i - 1] == items[i];
        match DecodeVariants(items[1..])
        case Err(e) => Err(e)
        case Ok(vs) => Ok([v] + vs)
  }

  /** `decodeIfPresent` of `[Variant]`. */
  function OptionalVariants(obj: map<string, Json>, key: string): (r: Result<Option<seq<Variant>>, DecodeError>)
    ensures (key !in obj || obj[key] == JNull) ==> r == Ok(None)
    ensures r.Ok? && r.value.Some? ==> key in obj && obj[key].JArray? && DecodeVariants(obj[key].items) == Ok(r.value.value)
    ensures key in obj && obj[key].JArray? ==> (r.Ok? <==> DecodeVariants(obj[key].items).Ok?)
    ensures key in obj && obj[key].JArray? && DecodeVariants(obj[key].items).Ok?
            ==> r == Ok(Some(DecodeVariants(obj[key].items).value))
    ensures key in obj && !obj[key].JArray? && !obj[key].JNull? ==> r.Err?
  {
    if key !in obj then Ok(None)
    else match obj[key]
      case JNull => Ok(None)
      case JArray(items) =>
        (match DecodeVariants(items)
         case Err(e) => Err(e)
         case Ok(vs) => Ok(Some(vs)))
      case _ => Err(TypeMismatch(key))
  }

  /** The payload: all four members are optional and are read from their
      wire keys, so `selectedID` comes from `"selectedId"`. */
  function DecodeInternalData(j: Json): (r: Result<InternalData, DecodeError>)
    ensures r.Ok? <==> j.JObject? && OptionalString(j.fields, "text").Ok? && OptionalString(j.fields, "url").Ok?
                       && OptionalInt(j.fields, "selectedId").Ok? && OptionalVariants(j.fields, "variants").Ok?
    ensures r.Ok? ==> r.value == InternalData(OptionalString(j.fields, "text").value, OptionalString(j.fields, "url").value,
                                              OptionalInt(j.fields, "selectedId").value, OptionalVariants(j.fields, "variants").value)
    ensures j.JObject? && (forall f: PayloadField :: WireKey(f) !in j.fields) ==> r == Ok(InternalData(None, None, None, None))
    ensures r.Ok? && r.value.variants.Some? ==> j.JObject? && "variants" in j.fields && j.fields["variants"].JArray?
                                                && DecodeVariants(j.fields["variants"].items) == Ok(r.value.variants.value)
    ensures r.Ok? && r.value.selectedID.Some? ==> j.JObject? && "selectedId" in j.fields && j.fields["selectedId"] == JNumber(r.value.selectedID.value)
    ensures r.Ok? && r.value.text.Some? ==> j.JObject? && "text" in j.fields && j.fields["text"] == JString(r.value.text.value)
    ensures r.Ok? && r.value.url.Some? ==> j.JObject? && "url" in j.fields && j.fields["url"] == JString(r.value.url.value)
  {
    match j
    case JObject(obj) =>
      (match OptionalString(obj, WireKey(TextField))
       case Err(e) => Err(e)
       case Ok(text) =>
         match OptionalString(obj, WireKey(UrlField))
         case Err(e) => Err(e)
         case Ok(url) =>
           match OptionalInt(obj, WireKey(SelectedIDField))
           case Err(e) => Err(e)
           case Ok(sel) =>
             match OptionalVariants(obj, WireKey(VariantsField))
             case Err(e) => Err(e)
             case Ok(vs) => Ok(InternalData(text, url, sel, vs)))
    case _ => Err(TypeMismatch("InternalData"))
  }

  function DecodeDatum(j: Json): (r: Result<Datum, DecodeError>)
    ensures r.Ok? <==> j.JObject? && RequiredString(j.fields, "name").Ok? && "data" in j.fields
                       && DecodeInternalData(j.fields["data"]).Ok?
    ensures j.JObject? && ("name" !in j.fields || "data" !in j.fields) ==> r.Err?
    ensures r.Ok? ==> j.JObject? && j.fields["name"] == JString(r.value.name) && DecodeInternalData(j.fields["data"]) == Ok(r.value.data)
  {
    match j
    case JObject(obj) =>
      (match RequiredString(obj, "name")
       case Err(e) => Err(e)
       case Ok(name) =>
         if "data" !in obj then Err(KeyNotFound("data"))
         else match DecodeInternalData(obj["data"])
           case Err(e) => Err(e)
           case Ok(d) => Ok(Datum(name, d)))
    case _ => Err(TypeMismatch("Datum"))
  }

  function DecodeData(items: seq<Json>): (r: Result<seq<Datum>, DecodeError>)
    ensures r.Ok? <==> forall i :: 0 <= i < |items| ==> DecodeDatum(items[i]).Ok?
    ensures r.Ok? ==> |r.value| == |items| && forall i :: 0 <= i < |items| ==> DecodeDatum(items[i]) == Ok(r.value[i])
  {
    if |items| == 0 then Ok([])
    else match DecodeDatum(items[0])
      case Err(e) => Err(e)
      case Ok(d) =>
        assert forall i :: 1 <= i < |items| ==> items[1..][i - 1] == items[i];
        match DecodeData(items[1..])
        case Err(e) => Err(e)
        case Ok(ds) => Ok([d] + ds)
  }

  function DecodeNames(items: seq<Json>): (r: Result<seq<string>, DecodeError>)
    ensures r.Ok? <==> forall i :: 0 <= i < |items| ==> items[i].JString?
    ensures r.Ok? ==> |r.value| == |items| && forall i :: 0 <= i < |items| ==> items[i] == JString(r.value[i])
  {
    if |items| == 0 then Ok([])
    else match items[0]
      case JString(s) =>
        (match DecodeNames(items[1..])
         case Err(e) => Err(e)
         case Ok(ns) => Ok([s] + ns))
      case JNull => Err(ValueNotFound("view"))
      case _ => Err(TypeMismatch("view"))
  }

  /** The top-level document: `data` and `view` are both required arrays, and
      decoding is all-or-nothing. */
  function DecodeViewData(j: Json): (r: Result<ViewData, DecodeError>)
    ensures r.Ok? <==> j.JObject? && "data" in j.fields && j.fields["data"].JArray? && DecodeData(j.fields["data"].items).Ok?
                       && "view" in j.fields && j.fields["view"].JArray? && DecodeNames(j.fields["view"].items).Ok?
    ensures r.Ok? ==> DecodeData(j.fields["data"].items) == Ok(r.value.data)
                      && DecodeNames(j.fields["view"].items) == Ok(r.value.view)
    ensures j.JObject? && ("data" !in j.fields || "view" !in j.fields) ==> r.Err?
  {
    match j
    case JObject(obj) =>
      if "data" !in obj then Err(KeyNotFound("data"))
      else if "view" !in obj then Err(KeyNotFound("view"))
      else
        (match obj["data"]
         case JArray(ds) =>
           (match DecodeData(ds)
            case Err(e) => Err(e)
            case Ok(data) =>
              match obj["view"]
              case JArray(ns) =>
                (match DecodeNames(ns)
                 case Err(e) => Err(e)
                 case Ok(view) => Ok(ViewData(data, view)))
              case JNull => Err(ValueNotFound("view"))
              case _ => Err(TypeMismatch("view")))
         case JNull => Err(ValueNotFound("data"))
         case _ => Err(TypeMismatch("data")))
    case _ => Err(TypeMismatch("ViewData"))
  }

  // ---------------------------------------------------------------- encoding

  /** `encodeIfPresent`: an absent optional writes no key. */
  function With(obj: map<string, Json>, key: string, v: Option<Json>): map<string, Json>
  {
    match v
    case None => obj
    case Some(x) => obj[key := x]
  }

  function EncodeVariant(v: Variant): Json
  {
    JObject(map["id" := JNumber(v.id), "text" := JString(v.text)])
  }

  function EncodeVariants(vs: seq<Variant>): (r: seq<Json>)
    ensures |r| == |vs|
    ensures forall i :: 0 <= i < |vs| ==> r[i] == EncodeVariant(vs[i])
  {
    if |vs| == 0 then [] else [EncodeVariant(vs[0])] + EncodeVariants(vs[1..])
  }

  function EncodeInternalData(p: InternalData): Json
  {
    var m0 := With(map[], WireKey(TextField), if p.text.Some? then Some(JString(p.text.value)) else None);
    var m1 := With(m0, WireKey(UrlField), if p.url.Some? then Some(JString(p.url.value)) else None);
    var m2 := With(m1, WireKey(SelectedIDField), if p.selectedID.Some? then Some(JNumber(p.selectedID.value)) else None);
    JObject(With(m2, WireKey(VariantsField), if p.variants.Some? then Some(JArray(EncodeVariants(p.variants.value))) else None))
  }

  function EncodeDatum(d: Datum): Json
  {
    JObject(map["name" := JString(d.name), "data" := EncodeInternalData(d.data)])
  }

  function EncodeData(ds: seq<Datum>): (r: seq<Json>)
    ensures |r| == |ds|
    ensures forall i :: 0 <= i < |ds| ==> r[i] == EncodeDatum(ds[i])
  {
    if |ds| == 0 then [] else [EncodeDatum(ds[0])] + EncodeData(ds[1..])
  }

  function EncodeNames(ns: seq<string>): (r: seq<Json>)
    ensures |r| == |ns|
    ensures forall i :: 0 <= i < |ns| ==> r[i] == JString(ns[i])
  {
    if |ns| == 0 then [] else [JString(ns[0])] + EncodeNames(ns[1..])
  }

  function EncodeViewData(vd: ViewData): Json
  {
    JObject(map["data" := JArray(EncodeData(vd.data)), "view" := JArray(EncodeNames(vd.view))])
  }

  // ---------------------------------------------------------------- round trip

  /** Every integer of the document fits Swift's `Int`. */
  predicate PayloadFits(p: InternalData)
  {
    && (p.selectedID.Some? ==> IsInt(p.selectedID.value))
    && (p.variants.Some? ==> forall i :: 0 <= i < |p.variants.value| ==> IsInt(p.variants.value[i].id))
  }

  predicate DocumentFits(vd: ViewData)
  {
    forall i :: 0 <= i < |vd.data| ==> PayloadFits(vd.data[i].data)
  }

  lemma VariantRoundTrip(v: Variant)
    requires IsInt(v.id)
    ensures DecodeVariant(EncodeVariant(v)) == Ok(v)
  {
    var m := EncodeVariant(v).fields;
    assert RequiredInt(m, "id") == Ok(v.id);
    assert RequiredString(m, "text") == Ok(v.text);
  }

  lemma {:induction false} VariantsRoundTrip(vs: seq<Variant>)
    requires forall i :: 0 <= i < |vs| ==> IsInt(vs[i].id)
    ensures DecodeVariants(EncodeVariants(vs)) == Ok(vs)
  {
    if |vs| > 0 {
      var items := EncodeVariants(vs);
      assert items == [EncodeVariant(vs[0])] + EncodeVariants(vs[1..]);
      assert items[1..] == EncodeVariants(vs[1..]);
      VariantRoundTrip(vs[0]);
      VariantsRoundTrip(vs[1..]);
      assert DecodeVariants(items) == Ok([vs[0]] + vs[1..]);
      assert [vs[0]] + vs[1..] == vs;
    }
  }

  /** Which keys the encoded payload carries, and with what values. */
  lemma EncodedPayloadMembers(p: InternalData)
    ensures var m := EncodeInternalData(p).fields;
      && ("text" in m <==> p.text.Some?) && (p.text.Some? ==> m["text"] == JString(p.text.value))
      && ("url" in m <==> p.url.Some?) && (p.url.Some? ==> m["url"] == JString(p.url.value))
      && ("selectedId" in m <==> p.selectedID.Some?) && (p.selectedID.Some? ==> m["selectedId"] == JNumber(p.selectedID.value))
      && ("variants" in m <==> p.variants.Some?) && (p.variants.Some? ==> m["variants"] == JArray(EncodeVariants(p.variants.value)))
  {
  }

  lemma InternalDataRoundTrip(p: InternalData)
    requires PayloadFits(p)
    ensures DecodeInternalData(EncodeInternalData(p)) == Ok(p)
  {
    var m := EncodeInternalData(p).fields;
    EncodedPayloadMembers(p);
    assert OptionalString(m, "text") == Ok(p.text);
    assert OptionalString(m, "url") == Ok(p.url);
    assert OptionalInt(m, "selectedId") == Ok(p.selectedID);
    if p.variants.Some? {
      VariantsRoundTrip(p.variants.value);
    }
    assert OptionalVariants(m, "variants") == Ok(p.variants);
  }

  lemma DatumRoundTrip(d: Datum)
    requires PayloadFits(d.data)
    ensures DecodeDatum(EncodeDatum(d)) == Ok(d)
  {
    var m := EncodeDatum(d).fields;
    assert RequiredString(m, "name") == Ok(d.name);
    assert m["data"] == EncodeInternalData(d.data);
    InternalDataRoundTrip(d.data);
  }

  lemma {:induction false} DataRoundTrip(ds: seq<Datum>)
    requires forall i :: 0 <= i < |ds| ==> PayloadFits(ds[i].data)
    ensures DecodeData(EncodeData(ds)) == Ok(ds)
  {
    if |ds| > 0 {
      var items := EncodeData(ds);
      assert items == [EncodeDatum(ds[0])] + EncodeData(ds[1..]);
      assert items[1..] == EncodeData(ds[1..]);
      DatumRoundTrip(ds[0]);
      DataRoundTrip(ds[1..]);
      assert DecodeData(items) == Ok([ds[0]] + ds[1..]);
      assert [ds[0]] + ds[1..] == ds;
    }
  }

  lemma NamesRoundTrip(ns: seq<string>)
    ensures DecodeNames(EncodeNames(ns)) == Ok(ns)
  {
    var r := DecodeNames(EncodeNames(ns));
    assert r.value == ns;
  }

  /** Encoding a document and decoding it again gives the document back. */
  lemma ViewDataRoundTrip(vd: ViewData)
    requires DocumentFits(vd)
    ensures DecodeViewData(EncodeViewData(vd)) == Ok(vd)
  {
    DataRoundTrip(vd.data);
    NamesRoundTrip(vd.view);
    var m := EncodeViewData(vd).fields;
    assert "data" in m && m["data"] == JArray(EncodeData(vd.data));
    assert "view" in m && m["view"] == JArray(EncodeNames(vd.view));
  }
}

=== FILE: screen.dfy ===
/** The bindings of the screen: every published document is rendered and
    every published status is shown in the label. The rendering here is the
    corrected planner, which skips the names of a document without entries
    instead of trapping. */
module Screen {
  import opened Wrappers
  import opened Model
  import Schema
  import Render
  import Appearance
  import Fetch

  datatype Display = Display(plan: Render.Plan, statusLabel: Appearance.Label)

  /** What the screen shows for a published pair. */
  function Present(s: Fetch.FetchState): (sc: Display)
    ensures Render.CanRender(s.data) ==> sc.plan == Render.PlanOf(s.data)
    ensures Fetch.Consistent(s) && s.status != Success ==> sc.plan == Render.Plan([], 0)
    ensures StatusFromRaw(sc.statusLabel.text) == Some(s.status)
    ensures sc.statusLabel == Appearance.StatusLabel(s.status)
  {
    Display(Render.PlanChecked(s.data), Appearance.StatusLabel(s.status))
  }

  /** After any sequence of completions, a screen whose label does not say
      success shows no widgets and has no content height. */
  lemma NoWidgetsUnlessSuccess(cs: seq<Fetch.Completion>, parse: seq<Fetch.Byte> -> Option<Schema.Json>)
    ensures var s := Fetch.Run(Fetch.Initial(), cs, parse);
      s.status != Success ==> Present(s).plan == Render.Plan([], 0)
  {
    Fetch.RunKeepsConsistency(Fetch.Initial(), cs, parse);
  }

  /** A document `updateView` cannot render: it decodes, and has a name to
      show but no entry to index. */
  function TrappingJson(): Schema.Json
  {
    Schema.JObject(map["data" := Schema.JArray([]), "view" := Schema.JArray([Schema.JString("x")])])
  }

  /** The document decodes and is published by the handler's first write,
      while the status still shows its previous value; the `$data` binding
      renders it at that write, so `updateView` traps before the status
      write that would have published success. */
  lemma DecodedDocumentCanTrap()
    ensures Schema.DecodeViewData(TrappingJson()) == Ok(ViewData([], ["x"]))
    ensures var w := Fetch.Writes(Fetch.Initial(), "u", Some([]), (b: seq<Fetch.Byte>) => Some(TrappingJson()));
      w[0] == Fetch.FetchState(Empty, ViewData([], ["x"])) && !Render.CanRender(w[0].data)
    ensures var s := Fetch.HandleResponse("u", Some([]), (b: seq<Fetch.Byte>) => Some(TrappingJson()));
      s.status == Success && !Render.CanRender(s.data)
    ensures Present(Fetch.FetchState(Success, ViewData([], ["x"]))).plan == Render.Plan([], 0)
  {
    var m := TrappingJson().fields;
    assert m["data"] == Schema.JArray([]);
    assert m["view"] == Schema.JArray([Schema.JString("x")]);
    var names := [Schema.JString("x")];
    assert names[1..] == [];
    assert Schema.DecodeNames(names[1..]) == Ok([]);
    assert names[0] == Schema.JString("x");
    assert ["x"] + [] == ["x"];
    assert Schema.DecodeNames(names) == Ok(["x"]);
  }
}

=== FILE: segment.dfy ===
/** The segmented control built for a choice payload: its items are the
    variant texts ordered by `id`, and its initial selection is derived from
    the widget's position in the view list, not from the payload. */
module Segment {
  import opened Model

  /** Ids never decrease along `vs`. */
  predicate SortedById(vs: seq<Variant>)
  {
    forall i, j :: 0 <= i < j < |vs| ==> vs[i].id <= vs[j].id
  }

  /** Inserts `v` before the first element whose id is not smaller, so that
      among equal ids the earlier one stays first. */
  function Insert(v: Variant, sorted: seq<Variant>): (r: seq<Variant>)
    ensures |r| == |sorted| + 1
    ensures r[0] == v || (|sorted| > 0 && r[0] == sorted[0])
  {
    if |sorted| == 0 || v.id <= sorted[0].id then [v] + sorted
    else
      var rest := Insert(v, sorted[1..]);
      HeadTail(sorted);
      [sorted[0]] + rest
  }

  /** Inserting adds exactly the one variant. */
  lemma {:induction false} InsertIsPermutation(v: Variant, sorted: seq<Variant>)
    ensures multiset(Insert(v, sorted)) == multiset(sorted) + multiset{v}
  {
    if |sorted| > 0 && v.id > sorted[0].id {
      InsertIsPermutation(v, sorted[1..]);
      assert Insert(v, sorted) == [sorted[0]] + Insert(v, sorted[1..]);
      HeadTail(sorted);
    }
  }

  /** Inserting into an ordered list keeps it ordered. */
  lemma {:induction false} InsertKeepsSorted(v: Variant, sorted: seq<Variant>)
    requires SortedById(sorted)
    ensures SortedById(Insert(v, sorted))
  {
    if |sorted| > 0 && v.id > sorted[0].id {
      var rest := Insert(v, sorted[1..]);
      assert SortedById(sorted[1..]);
      InsertKeepsSorted(v, sorted[1..]);
      assert Insert(v, sorted) == [sorted[0]] + rest;
      assert sorted[0].id <= rest[0].id;
    }
  }

  /** `variants.sorted(by: { $0.id < $1.id })`: an ordering of the variants by
      non-decreasing id. */
  function SortById(vs: seq<Variant>): (r: seq<Variant>)
    ensures SortedById(r)
    ensures multiset(r) == multiset(vs)
    ensures |r| == |vs|
  {
    if |vs| == 0 then []
    else
      var tail := SortById(vs[1..]);
      InsertKeepsSorted(vs[0], tail);
      InsertIsPermutation(vs[0], tail);
      HeadTail(vs);
      Insert(vs[0], tail)
  }

  function Texts(vs: seq<Variant>): (r: seq<string>)
    ensures |r| == |vs|
    ensures forall i :: 0 <= i < |vs| ==> r[i] == vs[i].text
  {
    if |vs| == 0 then [] else [vs[0].text] + Texts(vs[1..])
  }

  /** The items shown by the control. */
  function Items(vs: seq<Variant>): seq<string>
  {
    Texts(SortById(vs))
  }

  /** A non-empty list is its head followed by its tail. */
  lemma HeadTail<T>(s: seq<T>)
    requires |s| > 0
    ensures s == [s[0]] + s[1..]
  {
  }

  lemma TextsCons(v: Variant, vs: seq<Variant>)
    ensures Texts([v] + vs) == [v.text] + Texts(vs)
  {
    assert ([v] + vs)[1..] == vs;
  }

  /** Putting `x` in front of both sides keeps one multiset one `y` larger
      than the other. */
  lemma ConsAddsToBoth(x: string, longer: seq<string>, shorter: seq<string>, y: string)
    requires multiset(longer) == multiset(shorter) + multiset{y}
    ensures multiset([x] + longer) == multiset([x] + shorter) + multiset{y}
  {
  }

  /** Inserting a variant adds its text to the multiset of texts. */
  lemma {:induction false} InsertTexts(v: Variant, sorted: seq<Variant>)
    ensures multiset(Texts(Insert(v, sorted))) == multiset(Texts(sorted)) + multiset{v.text}
  {
    if |sorted| == 0 || v.id <= sorted[0].id {
      assert Insert(v, sorted) == [v] + sorted;
      TextsCons(v, sorted);
    } else {
      var rest := Insert(v, sorted[1..]);
      InsertTexts(v, sorted[1..]);
      ConsAddsToBoth(sorted[0].text, Texts(rest), Texts(sorted[1..]), v.text);
      assert Insert(v, sorted) == [sorted[0]] + rest;
      TextsCons(sorted[0], rest);
      HeadTail(sorted);
      TextsCons(sorted[0], sorted[1..]);
    }
  }

  /** The items are a permutation of the variant texts: every text is shown
      exactly as often as it occurs, duplicates included. */
  lemma {:induction false} ItemsArePermutationOfTexts(vs: seq<Variant>)
    ensures multiset(Items(vs)) == multiset(Texts(vs))
    ensures |Items(vs)| == |vs|
  {
    if |vs| > 0 {
      var tail := SortById(vs[1..]);
      ItemsArePermutationOfTexts(vs[1..]);
      InsertTexts(vs[0], tail);
      assert SortById(vs) == Insert(vs[0], tail);
      assert Texts(vs) == [vs[0].text] + Texts(vs[1..]);
      assert multiset(Texts(vs)) == multiset{vs[0].text} + multiset(Texts(vs[1..]));
    }
  }

  /** The variants with id `k`, in their order. */
  function WithId(vs: seq<Variant>, k: int): seq<Variant>
  {
    if |vs| == 0 then []
    else (if vs[0].id == k then [vs[0]] else []) + WithId(vs[1..], k)
  }

  lemma WithIdCons(x: Variant, vs: seq<Variant>, k: int)
    ensures WithId([x] + vs, k) == (if x.id == k then [x] else []) + WithId(vs, k)
  {
    assert ([x] + vs)[1..] == vs;
  }

  lemma {:induction false} InsertIsStable(v: Variant, sorted: seq<Variant>, k: int)
    ensures WithId(Insert(v, sorted), k) == (if v.id == k then [v] else []) + WithId(sorted, k)
  {
    if |sorted| == 0 || v.id <= sorted[0].id {
      assert Insert(v, sorted) == [v] + sorted;
      WithIdCons(v, sorted, k);
    } else {
      var rest := Insert(v, sorted[1..]);
      InsertIsStable(v, sorted[1..], k);
      assert Insert(v, sorted) == [sorted[0]] + rest;
      WithIdCons(sorted[0], rest, k);
      HeadTail(sorted);
      WithIdCons(sorted[0], sorted[1..], k);
      if v.id == k {
        assert sorted[0].id != k;
        assert WithId(Insert(v, sorted), k) == [v] + WithId(sorted[1..], k);
      } else {
        assert WithId(Insert(v, sorted), k) == (if sorted[0].id == k then [sorted[0]] else []) + WithId(sorted[1..], k);
      }
    }
  }

  /** The sort is stable: for every id, the variants carrying it keep their
      relative order, so the items are fixed even when ids repeat. */
  lemma {:induction false} SortIsStable(vs: seq<Variant>, k: int)
    ensures WithId(SortById(vs), k) == WithId(vs, k)
  {
    if |vs| > 0 {
      SortIsStable(vs[1..], k);
      InsertIsStable(vs[0], SortById(vs[1..]), k);
    }
  }

  /** Sorting leaves an already-ordered list untouched, so sorting twice is
      the same as sorting once. */
  lemma {:induction false} SortOfSortedIsIdentity(vs: seq<Variant>)
    requires SortedById(vs)
    ensures SortById(vs) == vs
  {
    if |vs| > 0 {
      assert SortedById(vs[1..]);
      SortOfSortedIsIdentity(vs[1..]);
      HeadTail(vs);
    }
  }

  lemma SortIsIdempotent(vs: seq<Variant>)
    ensures SortById(SortById(vs)) == SortById(vs)
  {
    SortOfSortedIsIdentity(SortById(vs));
  }

  /** `selectedSegmentIndex = id - 1`: the initial selection depends only on
      the widget's 0-based position. Position 0 gives -1, UIKit's "no
      segment". */
  function InitialSelection(position: nat): (sel: int)
    ensures sel >= -1
    ensures sel == -1 <==> position == 0
    ensures sel + 1 == position
  {
    position - 1
  }

  /** The choice reported when the user changes the selection: the 1-based
      ordinal of the chosen item. */
  function ReportedChoice(items: seq<string>, selectedSegmentIndex: int): (ordinal: int)
    requires 0 <= selectedSegmentIndex < |items|
    ensures 1 <= ordinal <= |items|
    ensures InitialSelection(ordinal) == selectedSegmentIndex
  {
    selectedSegmentIndex + 1
  }
}

=== FILE: wrappers.dfy ===
/** Failure-carrying datatypes shared by the other modules. The constructors of
    `Result` are `Ok`/`Err` so that they do not clash with the `Status` values. */
module Wrappers {

  datatype Option<+T> = None | Some(value: T) {

    /** The wrapped value, or `default` when there is none (Swift's `??`). */
    function GetOr(default: T): T {
      match this
      case Some(v) => v
      case None => default
    }
  }

  datatype Result<+R, +E> = Ok(value: R) | Err(error: E)
}
